=== FILE: README.md ===
# Paragraph splitter for uploaded job descriptions — Dafny model

The system is a small Flask application (`app.py`). A user uploads a `.docx`
document. The application cuts the document's paragraphs into chunks of 50
(`paragraphs_per_page` = 25, times two). It saves each chunk as a new document
`job_description_<k>.docx` in a fresh scratch directory. It packs those files
into `split_documents.zip` under their bare file names. It is meant to answer
with the number of chunks, but as written it fails first (see Findings).

This project models that pipeline in Dafny and proves what it promises:

- `paths.dfy` (module `PathNames`): the string operations the pipeline uses.
  These are `str.endswith`, POSIX `os.path.join` and `os.path.basename`, and
  the decimal rendering of the job number inside the f-string.
- `files.dfy` (module `Files`): what ends up on disk. A chunk document is its
  list of paragraph texts. An archive is its list of named entries. The file
  system is a map from path to stored file.
- `splitter.dfy` (module `Splitter`): `split_docx`. The chunking loop is the
  method `SplitSections`, proved equal to the recursive specification
  `Chunks(ps, 50)`. Lemmas about `Chunks` give the partition facts. The
  second loop is the method `SplitDocx`: it copies each chunk into a new
  document (`CopyParagraphs`) and saves it under `OutputPath(dir, i)`.
- `archiver.dfy` (module `Archiver`): `create_zip`, as the loop method
  `CreateZip`. It comes with a reader-side `Extract` and the round trip
  between them.
- `upload.dfy` (module `Upload`): `upload_file`. It covers the screening of
  the request, the accepted path (split, then archive) and the response.
  A missing file part and an empty filename redirect to the request URL
  (app.py:95, 101); only a wrong extension redirects to the index page
  (app.py:133). The scratch directory keeps its chunk files after the run.

Python's loops are Dafny loops with invariants. Values the Python code builds
by `append` are sequences the loops extend. File writes are updates of the
file-system map that a method returns. A paragraph is reduced to its text,
because only `para.text` is carried into a chunk (app.py:62).

## Model

| member | source | states |
|---|---|---|
| `Splitter.SplitSections` | app.py:28-42 | The buffering loop (append each paragraph; flush when the buffer holds at least 50 or the last paragraph was appended) returns exactly `Chunks(paragraphs, 50)` |
| `Splitter.ChunksFront` | app.py:37-42 | A flush emits exactly the next chunk: the first `k` remaining paragraphs when `k` is 50 or all that remain |
| `Splitter.ChunksConcat` | app.py:36-42 | Concatenating the chunks in order gives back the input paragraph sequence exactly |
| `Splitter.ChunksBounded` | app.py:33-41 | Every chunk is non-empty and has at most `paragraphs_per_job` paragraphs |
| `Splitter.ChunksSizes` | app.py:36-42 | Every chunk but the last has exactly 50 paragraphs; the last has P mod 50, or 50 when P is a multiple of 50 |
| `Splitter.ChunksCount` | app.py:36-42 | There are ceil(P / 50) chunks, and none exactly when the document has no paragraphs |
| `Splitter.CopyParagraphs` | app.py:59-62 | The new document receives the chunk's paragraph texts, in order, and nothing else |
| `Splitter.JobFileNameShape` | app.py:74 | `job_description_{i+1}.docx` contains no path separator and ends in `.docx` |
| `Splitter.JobFileNameInjective` | app.py:74 | Different chunk indices give different file names |
| `Splitter.OutputPathBasename` | app.py:74 | The basename of chunk i's output path is `job_description_{i+1}.docx` |
| `Splitter.OutputPathsDistinct` | app.py:74 | Different chunks are saved under different paths in the same directory |
| `Splitter.OutputPathsAt` | app.py:45-76 | `output_files` has one path per chunk, and the i-th (0-based) is `output_dir` joined with `job_description_{i+1}.docx` |
| `Splitter.OutputPathsUnique` | app.py:45-76 | No two entries of `output_files` coincide |
| `Splitter.SaveAllContents` | app.py:73-76 | After the saves, each output path holds its own chunk and every other file is as it was, given the paths are distinct |
| `Splitter.SplitDocx` | app.py:20-78 | Returns one path per chunk, in chunk order. The new file system is the old one with chunk i saved at path i |
| `PathNames.Join` | app.py:74 | `os.path.join(dir, name)`: an absolute `name` replaces `dir`; otherwise the two are joined with one `/` unless `dir` is empty or already ends in `/`. Its properties are in `PathNames.JoinShape` |
| `PathNames.Basename` | app.py:84 | `os.path.basename(p)`: the part of `p` after its last `/`. Its properties are in `PathNames.BasenameShape` and `PathNames.BasenameUnique` |
| `PathNames.Decimal` | app.py:74 | `str(n)` for a natural number, as the f-string renders `i+1`. Its properties are in `PathNames.DecimalDigits` and `PathNames.ParseDecimalInverse` |
| `Splitter.JobFileName` | app.py:74 | The file name `job_description_{i+1}.docx` of chunk i (0-based). Its properties are in `Splitter.JobFileNameShape` and `Splitter.JobFileNameInjective` |
| `Splitter.OutputPath` | app.py:74 | `os.path.join(output_dir, f'job_description_{i+1}.docx')`. Its properties are in `Splitter.OutputPathBasename` and `Splitter.OutputPathsDistinct` |
| `PathNames.EndsWith` | app.py:103 | `str.endswith(suffix)`: the last `len(suffix)` characters are `suffix`. It is used in `Upload.AcceptsFilenameIffExtension`, `Upload.Rejection` and `Splitter.JobFileNameShape` |
| `Splitter.SaveAll` | app.py:73-76 | The file system after `new_doc.save(output_path)` for each chunk in turn. Its properties are in `Splitter.SaveAllContents` |
| `Splitter.OutputPaths` | app.py:45-76 | The `output_files` list after n iterations. Its properties are in `Splitter.OutputPathsAt` and `Splitter.OutputPathsUnique` |
| `Upload.AcceptsFilename` | app.py:99-103 | The filename test: non-empty and ending in `.docx`. Its properties are in `Upload.AcceptsFilenameIffExtension` and `Upload.Rejection` |
| `Upload.Accepted` | app.py:93-103 | The screening: a file part is present and its filename passes the test. `Upload.Rejection` proves it is exactly the case with no redirect |
| `Upload.ZipPath` | app.py:120 | `os.path.join(temp_dir, 'split_documents.zip')`. `Upload.ZipPathNotOutput` proves it is none of the chunk paths |
| `Upload.ChunkFiles` | app.py:117 | The scratch directory once `split_docx` returns. Its properties are in `Upload.ChunkFilesContents` |
| `Upload.RunOutputs` | app.py:117-121 | The scratch directory once `create_zip` returns. Its properties are in `Upload.RunOutputsContents`, `Upload.RunFindsAllChunks`, `Upload.RunArchive` and `Upload.DownloadReassembles` |
| `PathNames.BasenameShape` | app.py:84 | `os.path.basename` gives a suffix of the path with no separator, preceded by a separator unless it is the whole path |
| `PathNames.BasenameUnique` | app.py:84 | Those three properties determine the basename: it is the part after the last separator |
| `PathNames.JoinShape` | app.py:74 | Joining a directory and a relative name ends the path with the name, after the directory and at most one separator |
| `PathNames.BasenameOfJoin` | app.py:74 | The basename of a directory joined with a separator-free name is that name |
| `PathNames.DecimalDigits` | app.py:74 | The rendering of a number is a non-empty digit string with no leading zero |
| `PathNames.ParseDecimalInverse` | app.py:74 | The rendering of a number reads back as that number |
| `PathNames.DecimalInjective` | app.py:74 | Distinct numbers render to distinct strings |
| `Archiver.Opened` | app.py:82 | Opening the archive in mode `'w'` puts an empty archive at its path and leaves every other file alone |
| `Archiver.FirstMissing` | app.py:83-84 | Gives the index of the first input file that does not exist: all files before it exist, and it is missing or is the end |
| `Archiver.Entries` | app.py:83-84 | The archive has one entry per input path, in input order, named by that path's basename and holding that file's content |
| `Archiver.CreateZip` | app.py:80-85 | The loop writes `Entries` of the files before the first missing one into the archive. It returns the archive path when none is missing, else the missing path. No other file changes |
| `Archiver.AllPresent` | app.py:80-85 | When all inputs exist and none is the archive, writing does not stop early and the entries come from the files as they were |
| `Archiver.ExtractDistinct` | app.py:84 | In an archive with distinct entry names, each entry reads back under its own name |
| `Archiver.ArchiveRoundTrip` | app.py:80-85 | When the inputs have distinct basenames, each input reads back from the archive, under its basename, with its content |
| `Archiver.ExtractAbsent` | app.py:83-84 | A name that is no input's basename is not in the archive |
| `Upload.AcceptsFilenameIffExtension` | app.py:99-103 | A filename is accepted exactly when it ends in `.docx`; the emptiness test only chooses the message |
| `Upload.Rejection` | app.py:93-133 | A request goes on to the splitter exactly when it has a file part whose filename is non-empty and ends in `.docx`. Otherwise it is a redirect: "No file part" or "No selected file" back to the request URL, or the `.docx` message to the index page |
| `Upload.ZipPathNotOutput` | app.py:74-120 | The archive path `split_documents.zip` is none of the chunk output paths |
| `Upload.RunOutputsContents` | app.py:117-121 | After archiving, chunk k's file still holds chunk k, the archive is there, and no other file exists in the scratch directory, so archiving overwrites no chunk |
| `Upload.RunFindsAllChunks` | app.py:117-121 | When the archive is written, none of the chunk files is missing, so `create_zip` archives every one of them |
| `Upload.ChunkFilesContents` | app.py:117 | In the fresh scratch directory, chunk k's file holds chunk k, and there are no files other than the chunk files |
| `Upload.RunArchive` | app.py:117-121 | The archive holds one entry per chunk, in chunk order. Entry k is named `job_description_{k+1}.docx` and holds chunk k |
| `Upload.EmptyDocument` | app.py:36-42 | A document with no paragraphs gives no chunks and no chunk files. The scratch directory holds only an empty archive |
| `Upload.DocumentsOfChunks` | app.py:117-121 | An archive whose entry k holds chunk k lists exactly the chunks, in order |
| `Upload.DownloadReassembles` | app.py:117-121 | The downloaded archive's documents, concatenated in entry order, are the uploaded document's paragraphs |
| `Upload.DownloadByName` | app.py:117-121 | Reading `job_description_{k+1}.docx` from the downloaded archive gives chunk k |
| `Upload.SplitAndArchive` | app.py:104-121 | The accepted branch counts ceil(P / 50) chunks and leaves `RunOutputs`: exactly the chunk files and their archive, as `Upload.RunOutputsContents` and `Upload.RunFindsAllChunks` state |
| `Upload.UploadFile` | app.py:92-133 | A rejected request gets its redirect and creates no file. An accepted one gets the result page with ceil(P / 50) chunks and leaves `RunOutputs`, the chunk files and the archive (see `Upload.RunOutputsContents`) |
| `Upload.UploadFileAsWritten` | app.py:124 | As written, on the modelled path with no logo file, every accepted upload ends in a NameError after the files are written. Rejections are unchanged |
| `Upload.SessionBugWitness` | app.py:124-126 | For `report.docx` with any content, on the modelled path with no logo file, the code as written gives a server error, and the corrected handler gives the result page with the chunk count |

## Left out

- Flask routing, templates, `flash` and redirects (app.py:87-101, 126, 132-148). They are reduced to `Response` values: a redirect carries its target and message, and the result page carries the count.
- The `/download` handler (app.py:135-148) and the session it reads. `session` is never imported (app.py:3), so the code as written cannot store or read the archive path; see Findings.
- Loading the uploaded document (`Document(input_path)`, app.py:22) and saving chunk documents (app.py:48, 75). These are library calls. The request carries the document's paragraph texts. A parse failure, which propagates as a server error, is not modelled. A new `Document()` is taken to hold no paragraphs of its own.
- The logo header (app.py:50-57). When the logo file exists, line 52 rebinds the loop variable `section` to the new document's first section. Line 60 then iterates that object instead of the paragraph chunk, and the run fails. The handler passes `assets/company_logo.png`, so this happens on every upload with at least one paragraph wherever that file exists. Only the no-logo path is modelled.
- The company font (app.py:64-71). It is a best-effort style change inside a bare `try`/`except: pass` and changes no paragraph text.
- `secure_filename` (app.py:104), saving the upload into the uploads folder, and removing it in `finally` (app.py:105-106, 130). The source of `secure_filename` is not part of this model. `created` lists only the files in the scratch directory. The save and the removal cancel out only when no file of that name was in the uploads folder before. An existing file of that name is overwritten at app.py:106 and then deleted at app.py:130. Also, the save comes before the `try` (app.py:106, 111), so if `tempfile.mkdtemp()` fails at app.py:109, the upload stays on disk.
- `os.makedirs` and `tempfile.mkdtemp` (app.py:18, 25, 109). The scratch directory is a parameter and is taken to be new and empty. Its files are never removed, and the model shows them remaining in `created`.
- Zip compression and byte content (app.py:82-84). An archive entry holds the model's value of the file.
- `Archiver.CreateZip`: writes are taken to succeed and existing inputs to be readable. An unwritable destination (app.py:82) or an unreadable input (app.py:84) raises in the source and is not modelled. The model knows only a missing input (`NotFound`), so "returns the archive path when none is missing" holds only for writable destinations and readable inputs.
- `Splitter.SplitDocx`: writes are taken to succeed. An unwritable destination at `new_doc.save` (app.py:75) raises in the source and is not modelled.
- `Archiver.CreateZip`: an input list that names the archive itself reads the empty archive created when it was opened. The real writer would read partly written bytes.
- Paths are POSIX (`/` separator), as `os.path` works on a Linux server. Windows path rules are not modelled.
- Paragraph formatting, styles, tables and images. Only paragraph text is copied (app.py:62).
- The 16 MiB request limit (app.py:15) and concurrent requests sharing the uploads folder. Both are left to the framework and the host.

## Findings

| source | as written | input that shows it | evidently intended | confidence | as-written member | corrected member |
|---|---|---|---|---|---|---|
| app.py:124 | `session['zip_path'] = zip_path` uses the name `session`, which app.py never imports (app.py:3). An accepted upload raises NameError after the chunk files and the archive are written, so the result page on line 126 is never rendered. This covers every accepted upload when `assets/company_logo.png` does not exist. When it does exist, an upload with at least one paragraph fails earlier, at app.py:60 (see Left out) | any accepted upload on the modelled path with no logo file, e.g. a file part named `report.docx` | Record the archive path in Flask's session and render the result page with the chunk count | high (not executed) | `Upload.UploadFileAsWritten` | `Upload.UploadFile` |

=== FILE: archiver.dfy ===
/**
 * The archiver of app.py (`create_zip`): it opens a fresh archive and
 * writes each input file into it under its basename, in input order.
 */
module Archiver {
  import opened PathNames
  import opened Files

  /** The file system right after the archive is opened for writing: an empty archive at `zipPath`. */
  function Opened(fs: FileSystem, zipPath: string): (fs': FileSystem)
    ensures zipPath in fs' && fs'[zipPath] == Zip([])
    ensures forall p :: p != zipPath ==> (p in fs' <==> p in fs) && (p in fs ==> fs'[p] == fs[p])
  {
    fs[zipPath := Zip([])]
  }

  /** The index of the first path in `files` that does not exist in `fs`, or |files| if all exist. */
  function FirstMissing(files: seq<string>, fs: FileSystem): (m: nat)
    ensures m <= |files|
    ensures forall k :: 0 <= k < m ==> files[k] in fs
    ensures m < |files| ==> files[m] !in fs
    decreases |files|
  {
    if files == [] then 0
    else if files[0] !in fs then 0
    else 1 + FirstMissing(files[1..], fs)
  }

  /** The entries of an archive of `files`: each file's content under its basename, in order. */
  function Entries(files: seq<string>, fs: FileSystem): (es: seq<ZipEntry>)
    requires forall k :: 0 <= k < |files| ==> files[k] in fs
    ensures |es| == |files|
    ensures forall k :: 0 <= k < |files| ==>
      es[k] == ZipEntry(Basename(files[k]), fs[files[k]])
    decreases |files|
  {
    if files == [] then []
    else
      var init, last := files[..|files| - 1], files[|files| - 1];
      assert forall k :: 0 <= k < |init| ==> init[k] == files[k];
      var front := Entries(init, fs);
      var es := front + [ZipEntry(Basename(last), fs[last])];
      assert forall k :: 0 <= k < |init| ==> es[k] == front[k];
      es
  }

  /**
   * Reading member `name` back from an archive. A zip reader resolves a
   * name to the last entry written under it.
   */
  function Extract(entries: seq<ZipEntry>, name: string): Option<StoredFile>
    decreases |entries|
  {
    if entries == [] then None
    else if entries[|entries| - 1].name == name then Some(entries[|entries| - 1].content)
    else Extract(entries[..|entries| - 1], name)
  }

  /** In an archive whose entry names are pairwise distinct, each entry reads back under its own name. */
  lemma {:induction false} ExtractDistinct(es: seq<ZipEntry>, k: nat)
    requires forall a, b :: 0 <= a < b < |es| ==> es[a].name != es[b].name
    requires k < |es|
    ensures Extract(es, es[k].name) == Some(es[k].content)
    decreases |es|
  {
    var m := |es| - 1;
    if k < m {
      assert es[m].name != es[k].name;
      ExtractDistinct(es[..m], k);
    }
  }

  /**
   * Archive round trip: when the input files have pairwise distinct
   * basenames, each one reads back from the archive, under its basename,
   * with the content it had on disk.
   */
  lemma ArchiveRoundTrip(files: seq<string>, fs: FileSystem, k: nat)
    requires forall j :: 0 <= j < |files| ==> files[j] in fs
    requires forall a, b :: 0 <= a < b < |files| ==> Basename(files[a]) != Basename(files[b])
    requires k < |files|
    ensures Extract(Entries(files, fs), Basename(files[k])) == Some(fs[files[k]])
  {
    ExtractDistinct(Entries(files, fs), k);
  }

  /** A name that no input file has as its basename reads back as absent. */
  lemma {:induction false} ExtractAbsent(files: seq<string>, fs: FileSystem, name: string)
    requires forall j :: 0 <= j < |files| ==> files[j] in fs
    requires forall j :: 0 <= j < |files| ==> Basename(files[j]) != name
    ensures Extract(Entries(files, fs), name) == None
    decreases |files|
  {
    if files != [] {
      var m := |files| - 1;
      assert Entries(files, fs)[..m] == Entries(files[..m], fs);
      ExtractAbsent(files[..m], fs, name);
    }
  }

  /**
   * When every input file exists and none of them is the archive itself,
   * nothing is missing and every entry comes from the file system as it
   * was before the archive was opened.
   */
  lemma AllPresent(files: seq<string>, fs: FileSystem, zipPath: string)
    requires forall k :: 0 <= k < |files| ==> files[k] in fs
    requires zipPath !in files
    ensures FirstMissing(files, Opened(fs, zipPath)) == |files|
    ensures Entries(files, Opened(fs, zipPath)) == Entries(files, fs)
  {
    var fs0 := Opened(fs, zipPath);
    assert forall k :: 0 <= k < |files| ==> files[k] in fs0 && fs0[files[k]] == fs[files[k]];
  }

  /**
   * `create_zip`: the archive at `zipPath` is created (replacing any file
   * there) and receives one entry per input file. If an input file does
   * not exist, writing stops there with an error; the archive is still
   * closed and keeps the entries written before.
   */
  method CreateZip(files: seq<string>, zipPath: string, fs: FileSystem)
    returns (r: IoResult, fs': FileSystem)
    ensures var fs0 := Opened(fs, zipPath);
      var m := FirstMissing(files, fs0);
      && r == (if m == |files| then Done(zipPath) else NotFound(files[m]))
      && fs' == fs0[zipPath := Zip(Entries(files[..m], fs0))]
  {
    var fs0 := Opened(fs, zipPath);
    var entries: seq<ZipEntry> := [];
    r := Done(zipPath);
    var k := 0;
    while k < |files|
      invariant k <= |files|
      invariant forall j :: 0 <= j < k ==> files[j] in fs0
      invariant entries == Entries(files[..k], fs0)
      invariant r == Done(zipPath)
    {
      var file := files[k];
      if file !in fs0 {
        r := NotFound(file);
        break;
      }
      EntriesStep(files, fs0, k);
      entries := entries + [ZipEntry(Basename(file), fs0[file])];
      k := k + 1;
    }
    FirstMissingAt(files, fs0, k);
    fs' := fs0[zipPath := Zip(entries)];
  }

  /** Writing the next file adds its entry at the end. */
  lemma EntriesStep(files: seq<string>, fs: FileSystem, k: nat)
    requires k < |files|
    requires forall j :: 0 <= j <= k ==> files[j] in fs
    ensures Entries(files[..k + 1], fs) == Entries(files[..k], fs) + [ZipEntry(Basename(files[k]), fs[files[k]])]
  {
    assert files[..k + 1][..k] == files[..k];
  }

  /** The first missing file is at `k` when all before it exist and `k` is the end or missing. */
  lemma FirstMissingAt(files: seq<string>, fs: FileSystem, k: nat)
    requires k <= |files|
    requires forall j :: 0 <= j < k ==> files[j] in fs
    requires k < |files| ==> files[k] !in fs
    ensures FirstMissing(files, fs) == k
  {
  }
}

=== FILE: files.dfy ===
/**
 * What the splitter and the archiver leave on disk, at the level of detail
 * the model keeps: a chunk document is its sequence of paragraph texts, an
 * archive is its sequence of named entries.
 */
module Files {

  /** A paragraph of a word-processing document, reduced to its text. */
  type Paragraph = string

  datatype StoredFile =
    | Docx(paragraphs: seq<Paragraph>)
    | Zip(entries: seq<ZipEntry>)

  /** One member of an archive: the name it is stored under and the file it holds. */
  datatype ZipEntry = ZipEntry(name: string, content: StoredFile)

  /** The files that exist, by path. */
  type FileSystem = map<string, StoredFile>

  datatype Option<T> = None | Some(value: T)

  /** The outcome of an operation that reads files: done, or the first path it could not open. */
  datatype IoResult = Done(path: string) | NotFound(path: string)
}

=== FILE: paths.dfy ===
/**
 * The string operations the splitter uses on file names and paths:
 * `str.endswith`, POSIX `os.path.join` and `os.path.basename`, and the
 * decimal rendering of a job number inside an f-string.
 */
module PathNames {

  /** The POSIX path separator used by `os.path` on the server. */
  const Sep: char := '/'

  /** `s.endswith(suffix)`: the last |suffix| characters of `s` are `suffix`. */
  predicate EndsWith(s: string, suffix: string) {
    |suffix| <= |s| && s[|s| - |suffix|..] == suffix
  }

  /**
   * `os.path.join(dir, name)` for two components: an absolute `name`
   * replaces `dir`; otherwise a separator is inserted unless `dir` is
   * empty or already ends with one.
   */
  function Join(dir: string, name: string): string
  {
    if |name| > 0 && name[0] == Sep then name
    else if dir == [] || dir[|dir| - 1] == Sep then dir + name
    else dir + [Sep] + name
  }

  /**
   * A relative name joined to a directory ends the path, preceded by
   * `dir` itself or by `dir` and one separator, and a separator stands
   * right before it unless the path is the name alone.
   */
  lemma JoinShape(dir: string, name: string)
    requires Sep !in name
    ensures EndsWith(Join(dir, name), name)
    ensures var p := Join(dir, name);
      p[..|p| - |name|] == dir || p[..|p| - |name|] == dir + [Sep]
    ensures var p := Join(dir, name);
      |name| < |p| ==> p[|p| - |name| - 1] == Sep
  {
  }

  /**
   * `os.path.basename(p)`: the part of `p` after its last separator
   * (all of `p` when it has none, empty when it ends with one).
   */
  function Basename(p: string): string
    decreases |p|
  {
    if p == [] || p[|p| - 1] == Sep then []
    else Basename(p[..|p| - 1]) + [p[|p| - 1]]
  }

  /**
   * The basename is a separator-free suffix of the path, and a separator
   * stands right before it unless it is the whole path.
   */
  lemma {:induction false} BasenameShape(p: string)
    ensures var b := Basename(p);
      && EndsWith(p, b)
      && Sep !in b
      && (|b| < |p| ==> p[|p| - |b| - 1] == Sep)
    decreases |p|
  {
    if p != [] && p[|p| - 1] != Sep {
      var q, last := p[..|p| - 1], p[|p| - 1];
      BasenameShape(q);
      var c := Basename(q);
      var b := c + [last];
      assert Basename(p) == b;
      assert p[|p| - |b|..|p| - 1] == q[|q| - |c|..];
      assert p[|p| - |b|..] == p[|p| - |b|..|p| - 1] + [last];
      if |b| < |p| {
        assert p[|p| - |b| - 1] == q[|q| - |c| - 1];
      }
    }
  }

  /**
   * The three properties in Basename's contract single out its result:
   * any separator-free suffix of `p` that is all of `p` or follows a
   * separator is the basename.
   */
  lemma BasenameUnique(p: string, b: string)
    requires EndsWith(p, b) && Sep !in b
    requires |b| < |p| ==> p[|p| - |b| - 1] == Sep
    ensures b == Basename(p)
  {
    BasenameShape(p);
    var c := Basename(p);
    assert |b| == |c|;
  }

  /** Joining a directory and a plain file name, then taking the basename, gives the name back. */
  lemma BasenameOfJoin(dir: string, name: string)
    requires Sep !in name
    ensures Basename(Join(dir, name)) == name
  {
    JoinShape(dir, name);
    BasenameUnique(Join(dir, name), name);
  }

  predicate IsDigit(c: char) {
    '0' <= c <= '9'
  }

  function DigitChar(d: nat): (c: char)
    requires d < 10
  {
    ('0' as int + d) as char
  }

  function DigitValue(c: char): nat
    requires IsDigit(c)
  {
    c as int - '0' as int
  }

  /** The decimal rendering of a natural number, as `f'{n}'` produces it. */
  function Decimal(n: nat): string
    decreases n
  {
    if n < 10 then [DigitChar(n)] else Decimal(n / 10) + [DigitChar(n % 10)]
  }

  /** A decimal rendering is a non-empty string of digits with no leading zero. */
  lemma {:induction false} DecimalDigits(n: nat)
    ensures |Decimal(n)| > 0
    ensures forall k :: 0 <= k < |Decimal(n)| ==> IsDigit(Decimal(n)[k])
    ensures n > 0 ==> Decimal(n)[0] != '0'
    decreases n
  {
    if n >= 10 {
      DecimalDigits(n / 10);
    }
  }

  /** Reading a string of decimal digits back as a number. */
  function ParseDecimal(s: string): nat
    requires forall k :: 0 <= k < |s| ==> IsDigit(s[k])
    decreases |s|
  {
    if s == [] then 0 else 10 * ParseDecimal(s[..|s| - 1]) + DigitValue(s[|s| - 1])
  }

  /** Reading a decimal rendering gives back the number rendered. */
  lemma {:induction false} ParseDecimalInverse(n: nat)
    ensures (forall k :: 0 <= k < |Decimal(n)| ==> IsDigit(Decimal(n)[k])) &&
            ParseDecimal(Decimal(n)) == n
    decreases n
  {
    DecimalDigits(n);
    var s := Decimal(n);
    if n >= 10 {
      DecimalDigits(n / 10);
      ParseDecimalInverse(n / 10);
      assert s[..|s| - 1] == Decimal(n / 10);
    }
  }

  /** Distinct numbers have distinct decimal renderings. */
  lemma DecimalInjective(m: nat, n: nat)
    requires m != n
    ensures Decimal(m) != Decimal(n)
  {
    ParseDecimalInverse(m);
    ParseDecimalInverse(n);
  }
}

=== FILE: splitter.dfy ===
/**
 * The document splitter of app.py (`split_docx`): it cuts the source
 * document's paragraphs into consecutive chunks of at most
 * `ParagraphsPerJob` paragraphs and writes each chunk as a new document
 * `job_description_<k>.docx` in the output directory.
 */
module Splitter {
  import opened PathNames
  import opened Files

  const ParagraphsPerPage: nat := 25
  /** The flush threshold of the chunking loop: two "pages" of paragraphs. */
  const ParagraphsPerJob: nat := ParagraphsPerPage * 2

  // ---------------------------------------------------------------------
  // Specification of the chunking
  // ---------------------------------------------------------------------

  /** The chunks of `ps`: consecutive runs of `n` paragraphs, the last one possibly shorter. */
  function Chunks(ps: seq<Paragraph>, n: nat): seq<seq<Paragraph>>
    requires n > 0
    decreases |ps|
  {
    if |ps| == 0 then []
    else if |ps| <= n then [ps]
    else [ps[..n]] + Chunks(ps[n..], n)
  }

  /** The paragraphs of a sequence of chunks, in order. */
  function Flatten(cs: seq<seq<Paragraph>>): seq<Paragraph>
  {
    if cs == [] then [] else cs[0] + Flatten(cs[1..])
  }

  /** Concatenating the chunks in order gives back the document's paragraphs exactly. */
  lemma {:induction false} ChunksConcat(ps: seq<Paragraph>, n: nat)
    requires n > 0
    ensures Flatten(Chunks(ps, n)) == ps
    decreases |ps|
  {
    var cs := Chunks(ps, n);
    if |ps| == 0 {
    } else if |ps| <= n {
      assert cs[1..] == [];
    } else {
      assert cs[1..] == Chunks(ps[n..], n);
      ChunksConcat(ps[n..], n);
      assert ps[..n] + ps[n..] == ps;
    }
  }

  /** Every chunk is non-empty and holds at most `n` paragraphs. */
  lemma {:induction false} ChunksBounded(ps: seq<Paragraph>, n: nat)
    requires n > 0
    ensures forall i :: 0 <= i < |Chunks(ps, n)| ==> 0 < |Chunks(ps, n)[i]| <= n
    decreases |ps|
  {
    if |ps| > n {
      ChunksBounded(ps[n..], n);
      var cs := Chunks(ps, n);
      forall i | 0 <= i < |cs| ensures 0 < |cs[i]| <= n {
        if i > 0 {
          assert cs[i] == Chunks(ps[n..], n)[i - 1];
        }
      }
    }
  }

  /**
   * Every chunk but the last holds exactly `n` paragraphs; the last holds
   * |ps| mod n of them, or `n` when |ps| is a multiple of `n`.
   */
  lemma {:induction false} ChunksSizes(ps: seq<Paragraph>, n: nat)
    requires n > 0
    ensures forall i :: 0 <= i < |Chunks(ps, n)| - 1 ==> |Chunks(ps, n)[i]| == n
    ensures |Chunks(ps, n)| > 0 ==>
      |Chunks(ps, n)[|Chunks(ps, n)| - 1]| == if |ps| % n == 0 then n else |ps| % n
    decreases |ps|
  {
    if |ps| > n {
      var rest := ps[n..];
      ChunksSizes(rest, n);
      var cs := Chunks(ps, n);
      assert cs[1..] == Chunks(rest, n);
      assert |rest| > 0;
      ModShift(|rest|, n);
      forall i | 0 <= i < |cs| - 1 ensures |cs[i]| == n {
        if i > 0 {
          assert cs[i] == Chunks(rest, n)[i - 1];
        }
      }
    } else if 0 < |ps| < n {
      assert |ps| % n == |ps|;
    }
  }

  /** There are ceil(|ps| / n) chunks; in particular none exactly when there are no paragraphs. */
  lemma {:induction false} ChunksCount(ps: seq<Paragraph>, n: nat)
    requires n > 0
    ensures |Chunks(ps, n)| == (|ps| + n - 1) / n
    ensures Chunks(ps, n) == [] <==> |ps| == 0
    decreases |ps|
  {
    if |ps| > n {
      ChunksCount(ps[n..], n);
      DivShift(|ps| - 1, n);
    } else if |ps| > 0 {
      DivShift(|ps| - 1, n);
    }
  }

  lemma DivShift(a: nat, n: nat)
    requires n > 0
    ensures (a + n) / n == a / n + 1
    ensures a < n ==> a / n == 0
  {
    var q, r := a / n, a % n;
    assert a + n == (q + 1) * n + r;
    DivUnique(a + n, n, q + 1, r);
    if a < n {
      DivUnique(a, n, 0, a);
    }
  }

  lemma ModShift(a: nat, n: nat)
    requires n > 0
    ensures (a + n) % n == a % n
  {
    var q, r := a / n, a % n;
    assert a + n == (q + 1) * n + r;
    DivUnique(a + n, n, q + 1, r);
  }

  /** Euclidean division has one quotient and one remainder. */
  lemma DivUnique(a: nat, n: nat, q: nat, r: nat)
    requires n > 0 && r < n && a == q * n + r
    ensures a / n == q && a % n == r
  {
    var q', r' := a / n, a % n;
    if q' < q {
      MulMono(q' + 1, q, n);
    } else if q < q' {
      MulMono(q + 1, q', n);
    }
  }

  /** Multiplying by the same natural keeps the order. */
  lemma MulMono(x: nat, y: nat, n: nat)
    requires x <= y
    ensures x * n <= y * n
  {
  }

  // ---------------------------------------------------------------------
  // The chunking loop
  // ---------------------------------------------------------------------

  /** The first chunk of `s` is its first `k` paragraphs when `k` is `n` or all of `s`. */
  lemma ChunksFront(s: seq<Paragraph>, n: nat, k: nat)
    requires 0 < k <= n && k <= |s|
    requires k == n || k == |s|
    ensures Chunks(s, n) == [s[..k]] + Chunks(s[k..], n)
  {
    if |s| <= n {
      assert s[..k] == s;
      assert s[k..] == [];
    }
  }

  /**
   * The loop of `split_docx` that walks the paragraphs, appending each to
   * the current buffer and flushing the buffer into `sections` once it holds
   * `ParagraphsPerJob` paragraphs or the last paragraph has been appended.
   */
  method SplitSections(paragraphs: seq<Paragraph>) returns (sections: seq<seq<Paragraph>>)
    ensures sections == Chunks(paragraphs, ParagraphsPerJob)
  {
    sections := [];
    var current: seq<Paragraph> := [];
    for i := 0 to |paragraphs|
      invariant |current| <= i && current == paragraphs[i - |current|..i]
      invariant |current| < ParagraphsPerJob
      invariant i == |paragraphs| ==> current == []
      invariant sections + Chunks(paragraphs[i - |current|..], ParagraphsPerJob)
             == Chunks(paragraphs, ParagraphsPerJob)
    {
      current := current + [paragraphs[i]];
      if |current| >= ParagraphsPerJob || i == |paragraphs| - 1 {
        var start := i + 1 - |current|;
        ChunksFront(paragraphs[start..], ParagraphsPerJob, |current|);
        assert paragraphs[start..][..|current|] == current;
        assert paragraphs[start..][|current|..] == paragraphs[i + 1..];
        sections := sections + [current];
        current := [];
      }
    }
  }

  // ---------------------------------------------------------------------
  // Writing the chunk documents
  // ---------------------------------------------------------------------

  const JobPrefix: string := "job_description_"
  const DocxSuffix: string := ".docx"

  /** The file name of the chunk with 0-based index `i`: `job_description_{i+1}.docx`. */
  function JobFileName(i: nat): string
  {
    JobPrefix + Decimal(i + 1) + DocxSuffix
  }

  /** A chunk's file name is a plain name (no separator) with the `.docx` extension. */
  lemma JobFileNameShape(i: nat)
    ensures Sep !in JobFileName(i)
    ensures EndsWith(JobFileName(i), DocxSuffix)
  {
    DecimalDigits(i + 1);
    var name := JobFileName(i);
    assert name[|name| - |DocxSuffix|..] == DocxSuffix;
  }

  /** Different chunks get different file names. */
  lemma JobFileNameInjective(i: nat, j: nat)
    requires i != j
    ensures JobFileName(i) != JobFileName(j)
  {
    DecimalInjective(i + 1, j + 1);
    AffixDistinct(JobPrefix, Decimal(i + 1), Decimal(j + 1), DocxSuffix);
  }

  lemma AffixDistinct(p: string, x: string, y: string, s: string)
    requires x != y
    ensures p + x + s != p + y + s
  {
    if |x| == |y| {
      var k :| 0 <= k < |x| && x[k] != y[k];
      assert (p + x + s)[|p| + k] == x[k];
      assert (p + y + s)[|p| + k] == y[k];
    }
  }

  /** The path chunk `i` is saved under in `outputDir`. */
  function OutputPath(outputDir: string, i: nat): string
  {
    Join(outputDir, JobFileName(i))
  }

  /** The archive stores chunk `i` under its bare file name. */
  lemma OutputPathBasename(outputDir: string, i: nat)
    ensures Basename(OutputPath(outputDir, i)) == JobFileName(i)
  {
    JobFileNameShape(i);
    BasenameOfJoin(outputDir, JobFileName(i));
  }

  /** Different chunks are saved under different paths, so none overwrites another. */
  lemma OutputPathsDistinct(outputDir: string, i: nat, j: nat)
    requires i != j
    ensures OutputPath(outputDir, i) != OutputPath(outputDir, j)
  {
    JobFileNameInjective(i, j);
    OutputPathBasename(outputDir, i);
    OutputPathBasename(outputDir, j);
  }

  /** The inner loop of `split_docx`: a fresh document receives the chunk's paragraph texts one by one. */
  method CopyParagraphs(section: seq<Paragraph>) returns (body: seq<Paragraph>)
    ensures body == section
  {
    body := [];
    for j := 0 to |section|
      invariant body == section[..j]
    {
      body := body + [section[j]];
    }
  }

  /** `fs` after saving `docs[k]` at `files[k]` for each k < |files| in turn. */
  function SaveAll(fs: FileSystem, files: seq<string>, docs: seq<seq<Paragraph>>): FileSystem
    requires |files| <= |docs|
    decreases |files|
  {
    if files == [] then fs
    else
      var m := |files| - 1;
      SaveAll(fs, files[..m], docs)[files[m] := Docx(docs[m])]
  }

  /** Saving one more document extends the sequence of writes by one. */
  lemma SaveAllStep(fs: FileSystem, files: seq<string>, docs: seq<seq<Paragraph>>, p: string)
    requires |files| < |docs|
    ensures SaveAll(fs, files + [p], docs) == SaveAll(fs, files, docs)[p := Docx(docs[|files|])]
  {
    assert (files + [p])[..|files|] == files;
  }

  /**
   * Saving under pairwise distinct paths: each path then holds its own
   * document, and every other file is as it was.
   */
  lemma {:induction false} SaveAllContents(fs: FileSystem, files: seq<string>, docs: seq<seq<Paragraph>>)
    requires |files| <= |docs|
    requires forall a, b :: 0 <= a < b < |files| ==> files[a] != files[b]
    ensures forall k :: 0 <= k < |files| ==>
      files[k] in SaveAll(fs, files, docs) && SaveAll(fs, files, docs)[files[k]] == Docx(docs[k])
    ensures forall p :: p !in files ==>
      (p in SaveAll(fs, files, docs) <==> p in fs) &&
      (p in fs ==> SaveAll(fs, files, docs)[p] == fs[p])
    decreases |files|
  {
    if files != [] {
      var m := |files| - 1;
      SaveAllContents(fs, files[..m], docs);
      forall k | 0 <= k < m ensures files[..m][k] == files[k] && files[k] != files[m] { }
    }
  }

  /** The paths of the first `n` chunks, in chunk order. */
  function OutputPaths(outputDir: string, n: nat): seq<string>
    decreases n
  {
    if n == 0 then [] else OutputPaths(outputDir, n - 1) + [OutputPath(outputDir, n - 1)]
  }

  /** The k-th of the first `n` output paths is chunk k's path. */
  lemma {:induction false} OutputPathsAt(outputDir: string, n: nat)
    ensures |OutputPaths(outputDir, n)| == n
    ensures forall k :: 0 <= k < n ==> OutputPaths(outputDir, n)[k] == OutputPath(outputDir, k)
    decreases n
  {
    if n > 0 {
      OutputPathsAt(outputDir, n - 1);
      assert OutputPaths(outputDir, n)[..n - 1] == OutputPaths(outputDir, n - 1);
    }
  }

  /** No two of the output paths coincide. */
  lemma OutputPathsUnique(outputDir: string, n: nat)
    ensures forall a, b :: 0 <= a < b < |OutputPaths(outputDir, n)| ==>
      OutputPaths(outputDir, n)[a] != OutputPaths(outputDir, n)[b]
  {
    OutputPathsAt(outputDir, n);
    forall a, b | 0 <= a < b < n
      ensures OutputPaths(outputDir, n)[a] != OutputPaths(outputDir, n)[b]
    {
      OutputPathsDistinct(outputDir, a, b);
    }
  }

  /**
   * `split_docx` without a logo: chunk the paragraphs, save chunk `i` as
   * `OutputPath(outputDir, i)` and return those paths in chunk order.
   * Every other file of `fs` is left as it was.
   */
  method SplitDocx(paragraphs: seq<Paragraph>, outputDir: string, fs: FileSystem)
    returns (outputFiles: seq<string>, fs': FileSystem)
    ensures |outputFiles| == |Chunks(paragraphs, ParagraphsPerJob)|
    ensures outputFiles == OutputPaths(outputDir, |outputFiles|)
    ensures fs' == SaveAll(fs, outputFiles, Chunks(paragraphs, ParagraphsPerJob))
  {
    var sections := SplitSections(paragraphs);
    outputFiles := [];
    fs' := fs;
    for i := 0 to |sections|
      invariant |outputFiles| == i
      invariant outputFiles == OutputPaths(outputDir, i)
      invariant fs' == SaveAll(fs, outputFiles, sections)
    {
      var body := CopyParagraphs(sections[i]);
      var outputPath := OutputPath(outputDir, i);
      SaveAllStep(fs, outputFiles, sections, outputPath);
      fs' := fs'[outputPath := Docx(body)];
      outputFiles := outputFiles + [outputPath];
    }
  }
}

=== FILE: upload.dfy ===
/**
 * The `/upload` handler of app.py (`upload_file`): it screens the posted
 * file part, splits an accepted document into chunk files in a fresh
 * scratch directory, archives them, and is meant to answer with the number
 * of chunks; as written it fails before that (`UploadFileAsWritten`).
 */
module Upload {
  import opened PathNames
  import opened Files
  import opened Splitter
  import opened Archiver

  /**
   * The part of a POST to `/upload` that the handler looks at: either no
   * `file` part, or one with its filename and the paragraphs of the
   * document it carries.
   */
  datatype Request = NoFilePart | FilePart(filename: string, paragraphs: seq<Paragraph>)

  /** Where a rejected request is sent back to: the URL it was posted to, or the index page. */
  datatype RedirectTarget = RequestUrl | IndexPage

  datatype Response =
    | Redirect(target: RedirectTarget, flash: string)
    | ResultPage(count: nat)
    | ServerError(error: string)

  const ArchiveName: string := "split_documents.zip"

  /** The archive's path in the scratch directory. */
  function ZipPath(tempDir: string): string
  {
    Join(tempDir, ArchiveName)
  }

  /** The filename test an upload must pass: non-empty and ending in `.docx`. */
  predicate AcceptsFilename(filename: string)
  {
    filename != "" && EndsWith(filename, DocxSuffix)
  }

  /** Whether the request reaches the splitter. */
  predicate Accepted(req: Request)
  {
    req.FilePart? && AcceptsFilename(req.filename)
  }

  /**
   * Any filename ending in `.docx` is non-empty, so acceptance comes down
   * to the extension test; the emptiness test only picks the message.
   */
  lemma AcceptsFilenameIffExtension(filename: string)
    ensures AcceptsFilename(filename) <==> EndsWith(filename, DocxSuffix)
  {
    if EndsWith(filename, DocxSuffix) {
      assert |filename| >= |DocxSuffix| == 5;
    }
  }

  /**
   * The screening of a request: the redirect it is turned away with, or
   * `None` when it is accepted. A missing part and an empty filename go
   * back to the request URL; a wrong extension goes to the index page.
   */
  function Rejection(req: Request): (r: Option<Response>)
    ensures r.None? <==> Accepted(req)
    ensures r.Some? ==> r.value.Redirect?
    ensures req.NoFilePart? ==> r == Some(Redirect(RequestUrl, "No file part"))
    ensures req.FilePart? && req.filename == "" ==> r == Some(Redirect(RequestUrl, "No selected file"))
    ensures req.FilePart? && req.filename != "" && !AcceptsFilename(req.filename) ==>
      r == Some(Redirect(IndexPage, "Please upload a valid Word document (.docx)"))
  {
    match req
    case NoFilePart => Some(Redirect(RequestUrl, "No file part"))
    case FilePart(filename, _) =>
      if filename == "" then Some(Redirect(RequestUrl, "No selected file"))
      else if EndsWith(filename, DocxSuffix) then None
      else Some(Redirect(IndexPage, "Please upload a valid Word document (.docx)"))
  }

  // ---------------------------------------------------------------------
  // What an accepted upload leaves in the scratch directory
  // ---------------------------------------------------------------------

  /** The chunk files of the document, saved in the empty scratch directory. */
  function ChunkFiles(paragraphs: seq<Paragraph>, tempDir: string): FileSystem
  {
    var chunks := Chunks(paragraphs, ParagraphsPerJob);
    OutputPathsAt(tempDir, |chunks|);
    SaveAll(map[], OutputPaths(tempDir, |chunks|), chunks)
  }

  /** Everything the run leaves in the scratch directory: the chunk files and the archive of them. */
  function RunOutputs(paragraphs: seq<Paragraph>, tempDir: string): FileSystem
  {
    var chunks := Chunks(paragraphs, ParagraphsPerJob);
    var files := ChunkFiles(paragraphs, tempDir);
    var fs0 := Opened(files, ZipPath(tempDir));
    var outputs := OutputPaths(tempDir, |chunks|);
    var m := FirstMissing(outputs, fs0);
    fs0[ZipPath(tempDir) := Zip(Entries(outputs[..m], fs0))]
  }

  /** The archive is not one of the chunk files: its basename differs from every chunk's. */
  lemma ZipPathNotOutput(tempDir: string, n: nat)
    ensures ZipPath(tempDir) !in OutputPaths(tempDir, n)
  {
    OutputPathsAt(tempDir, n);
    BasenameOfJoin(tempDir, ArchiveName);
    forall k | 0 <= k < n ensures OutputPaths(tempDir, n)[k] != ZipPath(tempDir) {
      OutputPathBasename(tempDir, k);
      assert JobFileName(k)[0] == 'j';
    }
  }

  /**
   * Chunk `k`'s file holds chunk `k`, and no other file is created besides
   * the chunk files.
   */
  lemma ChunkFilesContents(paragraphs: seq<Paragraph>, tempDir: string)
    ensures var chunks := Chunks(paragraphs, ParagraphsPerJob);
      var outputs := OutputPaths(tempDir, |chunks|);
      && |outputs| == |chunks|
      && (forall k :: 0 <= k < |outputs| ==>
            outputs[k] in ChunkFiles(paragraphs, tempDir) &&
            ChunkFiles(paragraphs, tempDir)[outputs[k]] == Docx(chunks[k]))
      && (forall p :: p in ChunkFiles(paragraphs, tempDir) ==> p in outputs)
  {
    var chunks := Chunks(paragraphs, ParagraphsPerJob);
    OutputPathsAt(tempDir, |chunks|);
    OutputPathsUnique(tempDir, |chunks|);
    SaveAllContents(map[], OutputPaths(tempDir, |chunks|), chunks);
  }

  /**
   * The archiver finds every chunk file: none of the outputs is missing
   * once the archive has been opened, so `create_zip` writes them all.
   */
  lemma RunFindsAllChunks(paragraphs: seq<Paragraph>, tempDir: string)
    ensures var chunks := Chunks(paragraphs, ParagraphsPerJob);
      var outputs := OutputPaths(tempDir, |chunks|);
      FirstMissing(outputs, Opened(ChunkFiles(paragraphs, tempDir), ZipPath(tempDir))) == |chunks|
  {
    var chunks := Chunks(paragraphs, ParagraphsPerJob);
    ChunkFilesContents(paragraphs, tempDir);
    ZipPathNotOutput(tempDir, |chunks|);
    AllPresent(OutputPaths(tempDir, |chunks|), ChunkFiles(paragraphs, tempDir), ZipPath(tempDir));
  }

  /**
   * After the run the chunk files are still there, each holding its chunk,
   * and the only other file in the scratch directory is the archive.
   */
  lemma RunOutputsContents(paragraphs: seq<Paragraph>, tempDir: string)
    ensures var chunks := Chunks(paragraphs, ParagraphsPerJob);
      var outputs := OutputPaths(tempDir, |chunks|);
      var out := RunOutputs(paragraphs, tempDir);
      && |outputs| == |chunks|
      && ZipPath(tempDir) in out && out[ZipPath(tempDir)].Zip?
      && (forall k :: 0 <= k < |chunks| ==> outputs[k] in out && out[outputs[k]] == Docx(chunks[k]))
      && (forall p :: p in out ==> p in outputs || p == ZipPath(tempDir))
  {
    var chunks := Chunks(paragraphs, ParagraphsPerJob);
    OutputPathsAt(tempDir, |chunks|);
    ChunkFilesContents(paragraphs, tempDir);
    ZipPathNotOutput(tempDir, |chunks|);
  }

  /**
   * The archive a user downloads holds one entry per chunk, in chunk
   * order: entry `k` is named `job_description_{k+1}.docx` and holds chunk
   * `k`.
   */
  lemma RunArchive(paragraphs: seq<Paragraph>, tempDir: string)
    ensures var chunks := Chunks(paragraphs, ParagraphsPerJob);
      var out := RunOutputs(paragraphs, tempDir);
      && ZipPath(tempDir) in out
      && out[ZipPath(tempDir)].Zip?
      && |out[ZipPath(tempDir)].entries| == |chunks|
      && (forall k :: 0 <= k < |chunks| ==>
            out[ZipPath(tempDir)].entries[k] == ZipEntry(JobFileName(k), Docx(chunks[k])))
  {
    var chunks := Chunks(paragraphs, ParagraphsPerJob);
    var outputs := OutputPaths(tempDir, |chunks|);
    var files := ChunkFiles(paragraphs, tempDir);
    ChunkFilesContents(paragraphs, tempDir);
    ZipPathNotOutput(tempDir, |chunks|);
    AllPresent(outputs, files, ZipPath(tempDir));
    var es := Entries(outputs, files);
    forall k | 0 <= k < |chunks| ensures es[k] == ZipEntry(JobFileName(k), Docx(chunks[k])) {
      OutputPathsAt(tempDir, |chunks|);
      OutputPathBasename(tempDir, k);
    }
  }

  /** A document without paragraphs yields no chunk files and an archive without entries. */
  lemma EmptyDocument(tempDir: string)
    ensures Chunks([], ParagraphsPerJob) == []
    ensures RunOutputs([], tempDir) == map[ZipPath(tempDir) := Zip([])]
  {
    assert OutputPaths(tempDir, 0) == [];
    assert ChunkFiles([], tempDir) == map[];
  }

  /** The paragraph lists of the documents in an archive, in entry order. */
  function Documents(es: seq<ZipEntry>): seq<seq<Paragraph>>
    decreases |es|
  {
    if es == [] then []
    else Documents(es[..|es| - 1]) + [if es[|es| - 1].content.Docx? then es[|es| - 1].content.paragraphs else []]
  }

  lemma {:induction false} DocumentsOfChunks(es: seq<ZipEntry>, chunks: seq<seq<Paragraph>>)
    requires |es| == |chunks|
    requires forall k :: 0 <= k < |es| ==> es[k].content == Docx(chunks[k])
    ensures Documents(es) == chunks
    decreases |es|
  {
    if es != [] {
      var m := |es| - 1;
      DocumentsOfChunks(es[..m], chunks[..m]);
      assert chunks[..m] + [chunks[m]] == chunks;
    }
  }

  /**
   * The downloaded archive's documents, concatenated in entry order, give
   * back the uploaded document's paragraphs.
   */
  lemma DownloadReassembles(paragraphs: seq<Paragraph>, tempDir: string)
    ensures var out := RunOutputs(paragraphs, tempDir);
      && ZipPath(tempDir) in out && out[ZipPath(tempDir)].Zip?
      && Flatten(Documents(out[ZipPath(tempDir)].entries)) == paragraphs
  {
    RunArchive(paragraphs, tempDir);
    DocumentsOfChunks(RunOutputs(paragraphs, tempDir)[ZipPath(tempDir)].entries, Chunks(paragraphs, ParagraphsPerJob));
    ChunksConcat(paragraphs, ParagraphsPerJob);
  }

  /** Reading the downloaded archive back: the entry named after chunk `k` holds chunk `k`. */
  lemma DownloadByName(paragraphs: seq<Paragraph>, tempDir: string, k: nat)
    requires k < |Chunks(paragraphs, ParagraphsPerJob)|
    ensures var out := RunOutputs(paragraphs, tempDir);
      && ZipPath(tempDir) in out && out[ZipPath(tempDir)].Zip?
      && Extract(out[ZipPath(tempDir)].entries, JobFileName(k))
           == Some(Docx(Chunks(paragraphs, ParagraphsPerJob)[k]))
  {
    RunArchive(paragraphs, tempDir);
    var es := RunOutputs(paragraphs, tempDir)[ZipPath(tempDir)].entries;
    forall a, b | 0 <= a < b < |es| ensures es[a].name != es[b].name {
      JobFileNameInjective(a, b);
    }
    ExtractDistinct(es, k);
  }

  // ---------------------------------------------------------------------
  // The handler
  // ---------------------------------------------------------------------

  /**
   * The body of the accepted branch up to the archive: split the document
   * into the (fresh, empty) scratch directory, then archive the chunk files
   * there. The archiver never meets a missing file (`RunFindsAllChunks`).
   */
  method SplitAndArchive(paragraphs: seq<Paragraph>, tempDir: string)
    returns (count: nat, created: FileSystem)
    ensures count == |Chunks(paragraphs, ParagraphsPerJob)|
    ensures count == (|paragraphs| + ParagraphsPerJob - 1) / ParagraphsPerJob
    ensures created == RunOutputs(paragraphs, tempDir)
  {
    var outputFiles, files := SplitDocx(paragraphs, tempDir, map[]);
    var zipPath := ZipPath(tempDir);
    ChunkFilesContents(paragraphs, tempDir);
    ZipPathNotOutput(tempDir, |outputFiles|);
    AllPresent(outputFiles, files, zipPath);
    var r, fs' := CreateZip(outputFiles, zipPath, files);
    assert r.Done?;
    ChunksCount(paragraphs, ParagraphsPerJob);
    count := |outputFiles|;
    created := fs';
  }

  const SessionNameError: string := "NameError: name 'session' is not defined"

  /**
   * `upload_file` with the archive path recorded in the session before the
   * result page is rendered. A rejected request creates no file; an
   * accepted one reports ceil(P / 50) chunks for P paragraphs and leaves
   * the chunk files and their archive in the scratch directory.
   */
  method UploadFile(req: Request, tempDir: string) returns (resp: Response, created: FileSystem)
    ensures !Accepted(req) ==> resp.Redirect? && Some(resp) == Rejection(req) && created == map[]
    ensures Accepted(req) ==>
      && resp == ResultPage((|req.paragraphs| + ParagraphsPerJob - 1) / ParagraphsPerJob)
      && created == RunOutputs(req.paragraphs, tempDir)
  {
    var rejection := Rejection(req);
    if rejection.Some? {
      resp, created := rejection.value, map[];
    } else {
      var count, files := SplitAndArchive(req.paragraphs, tempDir);
      resp, created := ResultPage(count), files;
    }
  }

  /**
   * `upload_file` as written: `session` is never imported, so storing the
   * archive path raises a NameError after the chunk files and the archive
   * have been written. On the modelled path, where there is no logo file,
   * no accepted upload ever reaches the result page.
   */
  method UploadFileAsWritten(req: Request, tempDir: string) returns (resp: Response, created: FileSystem)
    ensures !Accepted(req) ==> resp.Redirect? && Some(resp) == Rejection(req) && created == map[]
    ensures Accepted(req) ==>
      && resp == ServerError(SessionNameError)
      && created == RunOutputs(req.paragraphs, tempDir)
  {
    var rejection := Rejection(req);
    if rejection.Some? {
      resp, created := rejection.value, map[];
    } else {
      var count, files := SplitAndArchive(req.paragraphs, tempDir);
      resp, created := ServerError(SessionNameError), files;
    }
  }

  /**
   * Uploading `report.docx` with any content: as written the handler ends
   * in a server error; with the session fixed it shows the result page.
   */
  method SessionBugWitness(paragraphs: seq<Paragraph>, tempDir: string) returns (resp: Response, fixed: Response)
    ensures resp == ServerError(SessionNameError)
    ensures fixed.ResultPage? && fixed.count == |Chunks(paragraphs, ParagraphsPerJob)|
  {
    var req := FilePart("report.docx", paragraphs);
    assert EndsWith(req.filename, DocxSuffix);
    ChunksCount(paragraphs, ParagraphsPerJob);
    var count := |Chunks(paragraphs, ParagraphsPerJob)|;
    assert count == (|req.paragraphs| + ParagraphsPerJob - 1) / ParagraphsPerJob;
    var files;
    resp, files := UploadFileAsWritten(req, tempDir);
    fixed, files := UploadFile(req, tempDir);
    assert fixed == ResultPage(count);
  }
}
